=== FILE: README.md ===
# Kanban calendar: drag reassignment and date navigation, in Dafny

This project models the core of a drag-and-drop calendar board. It covers four parts:

- **The event store.** A map from a day key (`yyyy-MM-dd`) to the ordered list of events for that day. The drop handler moves an event between days.
- **The view window.** The current date, the one-day (mobile) or seven-day (desktop) step of the previous/next handlers, and the Monday-based week the board shows.
- **Swipe navigation.** One evaluation of a horizontal touch delta at touch end.
- **The edge-drag watcher.** While a card is dragged near a window edge, a delay timer fires and then a repeating interval fires. Each firing navigates. Timers are explicit state and timer firings are discrete inputs.

Days are integer day numbers counted from 1970-01-01, a Thursday (`Dates`). `addDays` and `subDays` are integer addition and subtraction. `getDay` and `startOfWeek(…, { weekStartsOn: 1 })` follow the date-fns formulas on those numbers. The `yyyy-MM-dd` key is an injective wrapper around the day number (`Dates.FormatKey`).

Modules: `Dates`, `EventStore`, `ViewWindow`, `Swipe`, `EdgeDragWatcher`, `Calendar` (the `Calendar` component, which wires the others together) and `CalendarBoard` (the simpler board variant).

The mobile/desktop flag and the window width are parameters. Pixel coordinates are `real`s.

## Model

| member | source | states |
|---|---|---|
| `EventStore.Without` | components/Calendar/index.tsx:57 | the filtered bucket holds exactly the events of the bucket whose id differs from the dropped id, and is no longer |
| `EventStore.WithoutConcat` | components/Calendar/index.tsx:57 | filtering distributes over concatenation, so survivors keep their order relative to each other |
| `EventStore.WithoutKeepsOrder` | components/Calendar/index.tsx:57 | any two surviving events appear in the filtered bucket in their original order |
| `EventStore.WithoutIdempotent` | components/Calendar/index.tsx:57 | filtering twice by the same id equals filtering once |
| `EventStore.WithoutAbsent` | components/Calendar/index.tsx:57 | a bucket without the id is returned unchanged |
| `EventStore.WithoutKeepsDistinct` | components/Calendar/index.tsx:57 | filtering keeps a bucket free of repeated ids |
| `EventStore.EventsForTotal` | components/Calendar/index.tsx:64 | a day with no entry reads as the empty list and a day with an entry reads as its stored list, so a lookup never fails |
| `EventStore.Move` | components/Calendar/index.tsx:53-69 | the key set becomes the old key set plus the target; emptied buckets stay as keys; every other bucket is its old list with the id filtered out; the target is its old list (or `[]`) filtered, followed by the event |
| `EventStore.MoveLookup` | components/Calendar/index.tsx:53-69 | read through the `?? []` lookup, a drop leaves every day, known or not, with its old list minus the card, and the target with that list followed by the card |
| `EventStore.MoveLocatesOnce` | components/Calendar/index.tsx:55-66 | after a drop the dropped id occurs exactly once in the whole store, as the last event of the target bucket |
| `EventStore.WithoutIds` | components/Calendar/index.tsx:57 | the ids of a filtered bucket are its old ids minus the dropped id |
| `EventStore.MoveIds` | components/Calendar/index.tsx:55-66 | after a drop, a bucket other than the target has its old ids minus the dropped id; the target has its old ids minus the dropped id, plus the dropped id |
| `EventStore.MoveTargetDistinct` | components/Calendar/index.tsx:63-66 | the target bucket has no repeated id after the drop when it had none before |
| `EventStore.MovePreservesUnique` | components/Calendar/index.tsx:53-69 | if every id sits at most once in at most one bucket before a drop, the same holds after it |
| `EventStore.MoveFresh` | components/Calendar/index.tsx:53-69 | dropping an event the store does not hold just appends it to the target bucket |
| `EventStore.MoveIdempotent` | components/Calendar/index.tsx:53-69 | dropping the same event on the same day twice gives the same store as dropping it once |
| `EventStore.MoveAllPreservesUnique` | components/Calendar/index.tsx:53-69 | over any sequence of drops, every id stays in at most one bucket |
| `EventStore.MoveAllKeys` | components/Calendar/index.tsx:55-67 | no key is ever removed by drops, and every drop target ends up as a key |
| `Dates.StartOfWeek` | components/Calendar/index.tsx:25 | the start of the week is a Monday at most six days before the date |
| `Dates.StartOfWeekUnique` | components/Calendar/index.tsx:25 | that Monday is the only Monday within the six days before the date |
| `Dates.StartOfWeekShift` | components/Calendar/index.tsx:46 | the week of the date seven days later starts seven days later |
| `Dates.FormatKeyInjective` | components/Calendar/index.tsx:217 | distinct days have distinct keys |
| `ViewWindow.NextDate` | components/Calendar/index.tsx:45-47 | next moves the date forward: to the following day on mobile; on desktop to the same weekday of the following week |
| `ViewWindow.PrevDate` | components/Calendar/index.tsx:49-51 | previous moves the date back: to the preceding day on mobile; on desktop to the same weekday of the preceding week |
| `ViewWindow.PrevNextInverse` | components/Calendar/index.tsx:45-51 | previous after next, and next after previous, restore the date in both modes |
| `ViewWindow.CountOfConcat` | components/Calendar/index.tsx:45-51 | signal counts add up over concatenated runs |
| `ViewWindow.ApplyAllNet` | components/Calendar/index.tsx:45-51 | any run of signals moves the date by one step per next minus one step per previous, in any order |
| `ViewWindow.ApplyAllConcat` | components/Calendar/index.tsx:45-51 | applying two runs of signals one after the other is applying their concatenation |
| `ViewWindow.WeekDates` | components/Calendar/index.tsx:24-27 | the week has 7 days, consecutive and ascending, starts on a Monday and contains the current date |
| `ViewWindow.WeekDatesAreTheWeek` | components/Calendar/index.tsx:24-27 | a day is shown exactly when its week starts on the same Monday as the current date's week |
| `ViewWindow.WeekDatesStable` | components/Calendar/index.tsx:174-177 | any day of the shown week yields the same week |
| `ViewWindow.WeekAfterNavigation` | components/Calendar/index.tsx:45-51 | on desktop, next shows the week right after the current one and previous the week right before |
| `Calendar.InitialDateIsMonday` | components/Calendar/index.tsx:20 | the initial date 2024-03-11 is a Monday and starts its own week |
| `Calendar.HandlePrevUndoesNext` | components/Calendar/index.tsx:45-51 | on the calendar state, `handlePrev` after `handleNext` (and the reverse) is the identity, events included |
| `Calendar.PrimingRestoresDate` | components/Calendar/index.tsx:37-43 | the board stays hidden after the mount effect's `handleNext`; after the timeout's `handlePrev` the date is back at its start, the events are unchanged and the board is shown |
| `Calendar.VisibleColumns` | components/Calendar/index.tsx:198-229 | mobile shows one column for the current date; desktop shows 7 consecutive columns from a Monday; one column is the current date; every column reads its own day's key and gets the stored list or `[]` |
| `Calendar.DropOnColumn` | components/Calendar/index.tsx:205-224 | a drop on mobile targets the current date's key, on desktop the column's own key; the target then holds its old list minus the card followed by the card, no other day holds the card, and the drop handler itself changes neither the date nor visibility (a touch drop's touchend also reaches the swipe listener; see Findings) |
| `Calendar.DropLandsInColumn` | components/Calendar/index.tsx:200-224 | a card dropped on a visible column is shown last in that column and in no other visible column; the drop handler changes neither the date nor visibility |
| `Calendar.TouchDropTurnsWeek` | components/Calendar/index.tsx:105-122 | as written, a desktop touch drop whose travel exceeds 50 pixels also turns the week, back for a rightward drag and forward for a leftward one, and the day the card landed on is no longer shown |
| `Calendar.TouchDropScenario` | components/Calendar/index.tsx:105-122 | a touch drag from Monday at x = 100 to Wednesday at x = 400 puts the card last on Wednesday and shows the previous week, which lacks that Wednesday |
| `Calendar.TouchDropKeepsColumn` | components/Calendar/index.tsx:105-122 | when touchend ignores touches that drive a drag, a touch drop of any travel keeps the date and shows the card last in its column |
| `ViewWindow.ConsecutiveOffset` | components/Calendar/index.tsx:215-227 | in the week's run of consecutive days (used for both the calendar's columns and the board's days), any two days differ by their distance in the run, in either order |
| `Calendar.SelectDate` | components/Calendar/index.tsx:174-177 | tapping a weekday tab selects that day and keeps the same seven tabs |
| `Calendar.OnSwipe` | components/Calendar/index.tsx:99-119 | only while the board is shown (the listeners need the container); a delta within ±50 leaves the state alone; a delta above 50 is `handlePrev`; a delta below −50 is `handleNext`; events never change |
| `Calendar.RepeatedSignalMoves` | components/EdgeDragWatcher/index.tsx:43-46 | the same signal n times moves the date n steps in its direction |
| `Calendar.EdgeHoldMovesDate` | components/EdgeDragWatcher/index.tsx:35-49 | holding a drag still at one edge through the delay and n interval ticks moves the date n + 1 steps toward that edge |
| `Calendar.DropScenario` | components/Calendar/index.tsx:53-69 | starting from `{2024-03-11: [E1], 2024-03-12: []}`, dropping E1 on 2024-03-12 empties the first day and gives `[E1]` on the second |
| `Swipe.Classify` | components/Calendar/index.tsx:110-118 | at most one signal; `Prev` iff the delta exceeds 50; `Next` iff it is below −50; none iff it lies within ±50, so a delta of exactly 50 does nothing |
| `Swipe.ClassifyMirror` | components/Calendar/index.tsx:112-117 | the mirrored swipe gives the opposite signal |
| `Swipe.OppositeSwipesCancel` | components/Calendar/index.tsx:112-117 | a swipe followed by the mirrored swipe leaves the date unchanged |
| `Swipe.ReinstallLosesTouchStart` | components/Calendar/index.tsx:98-128 | as written, a render between touch start and touch end makes a 10-pixel leftward move at x = 290 signal `Prev` |
| `Swipe.KeptAcrossReinstalls` | components/Calendar/index.tsx:98-128 | with the touch start kept, re-runs of the listener effect emit nothing and change nothing |
| `Swipe.KeptGestureClassified` | components/Calendar/index.tsx:102-119 | with the touch start kept, a gesture is classified by its own delta however often the effect re-runs in between |
| `EdgeDragWatcher.BothEdgesIffNarrow` | components/EdgeDragWatcher/index.tsx:28-33 | some x is in both edge zones exactly when the window is narrower than 100 pixels |
| `EdgeDragWatcher.Signals` | components/EdgeDragWatcher/index.tsx:39-40 | a firing emits `Prev` iff at the left edge and `Next` iff at the right edge, one signal per edge, `Prev` first |
| `EdgeDragWatcher.ClearTimers` | components/EdgeDragWatcher/index.tsx:58-67 | afterwards neither the delay nor the interval is live; the captured edges, the registered cleanup and the last dependencies are untouched |
| `EdgeDragWatcher.ClearTimersIdempotent` | components/EdgeDragWatcher/index.tsx:58-67 | clearing twice is clearing once, and a cleared watcher is in a reachable state |
| `EdgeDragWatcher.EffectBody` | components/EdgeDragWatcher/index.tsx:37 | a delay timer is armed only when neither a delay timer nor an interval was live |
| `EdgeDragWatcher.EffectRun` | components/EdgeDragWatcher/index.tsx:22-56 | when not dragging or without an offset, no timer and no cleanup are left; when dragging outside both zones, no timer is left; when dragging in a zone, exactly a fresh delay timer is left, capturing the zones of that x; reachable states stay reachable |
| `EdgeDragWatcher.Render` | components/EdgeDragWatcher/index.tsx:56 | a render records its dependencies; with the same dependencies it changes nothing; with changed ones in a reachable state the cleanup has cancelled any running interval; reachable states stay reachable |
| `EdgeDragWatcher.Unmount` | components/EdgeDragWatcher/index.tsx:55 | unmounting leaves no live timer |
| `EdgeDragWatcher.DelayFires` | components/EdgeDragWatcher/index.tsx:38-49 | a pending delay fires one navigation per captured edge (one or two in a reachable state), then the delay reference is empty and the interval runs with the same edges; a cancelled delay does nothing; the invariant is kept |
| `EdgeDragWatcher.IntervalTick` | components/EdgeDragWatcher/index.tsx:43-46 | a live interval re-emits the captured edges' navigations (one or two in a reachable state), a cleared one emits nothing, and a tick changes no state |
| `EdgeDragWatcher.TransitionPreservesInv` | components/EdgeDragWatcher/index.tsx:22-67 | every input keeps at most one timer live, and only with an edge to report and a cleanup that cancels it |
| `EdgeDragWatcher.RunPreservesInv` | components/EdgeDragWatcher/index.tsx:22-67 | the same holds over any sequence of inputs |
| `EdgeDragWatcher.QuietWithoutTimers` | components/EdgeDragWatcher/index.tsx:38-49 | with no live timer, timer firings emit nothing and change nothing |
| `EdgeDragWatcher.NoSignalAfterRelease` | components/EdgeDragWatcher/index.tsx:23-26 | once the drag ends, no signal fires however many timer firings follow |
| `EdgeDragWatcher.NoSignalAfterUnmount` | components/EdgeDragWatcher/index.tsx:55 | after unmounting, no signal fires |
| `EdgeDragWatcher.CountOfRepeated` | components/EdgeDragWatcher/index.tsx:43-46 | repeating a run of signals n times multiplies its counts by n |
| `EdgeDragWatcher.TicksRepeat` | components/EdgeDragWatcher/index.tsx:43-46 | each interval tick repeats the captured edges' signals |
| `EdgeDragWatcher.HoldAtEdge` | components/EdgeDragWatcher/index.tsx:35-49 | a still hold in a zone emits the captured signals once at the delay and once per later tick |
| `EdgeDragWatcher.StillPointerKeepsTicking` | components/EdgeDragWatcher/index.tsx:56 | after a render with the same drag state, pointer position and mobile flag, even at a different window width, the interval keeps emitting the captured direction on every tick |
| `EdgeDragWatcher.MoveInZoneRearms` | components/EdgeDragWatcher/index.tsx:55-56 | any dependency change while in a zone, including a horizontal or vertical pointer move, cancels the running interval so the next tick is silent, and re-arms the delay from zero with the edges at the new position |
| `EdgeDragWatcher.VerticalMoveScenario` | components/EdgeDragWatcher/index.tsx:19-56 | a hold at (10, 100) through the delay, then a move to (10, 200), then a tick emits a single `Prev` |
| `EdgeDragWatcher.BothEdgesCancel` | components/EdgeDragWatcher/index.tsx:39-40 | with both zones active a firing emits `Prev` then `Next`, which leaves the date unchanged |
| `EdgeDragWatcher.HoldScenario` | components/EdgeDragWatcher/index.tsx:22-56 | holding at x = 10 through the delay and one tick fires exactly two `Prev` signals |
| `EdgeDragWatcher.ReleaseScenario` | components/EdgeDragWatcher/index.tsx:22-56 | releasing before the delay fires gives no signal, even as the timers would keep firing |
| `CalendarBoard.MobileTestsDiffer` | components/CalendarBoard/index.tsx:16 | the board's `innerWidth < 768` and the calendar's `maxWidth: 768` disagree exactly at width 768 |
| `CalendarBoard.Days` | components/CalendarBoard/index.tsx:18-23 | mobile shows exactly `[currentDate]`; otherwise 7 consecutive ascending days from a Monday containing the current date |
| `CalendarBoard.DaysMatchCalendar` | components/CalendarBoard/index.tsx:18-23 | the board's days equal the calendar's column dates in both modes |
| `CalendarBoard.PrevClicked` | components/CalendarBoard/index.tsx:29-31 | the board's Prev button agrees with the calendar's `handlePrev` |
| `CalendarBoard.NextClicked` | components/CalendarBoard/index.tsx:39 | the board's Next button agrees with the calendar's `handleNext` |
| `CalendarBoard.PrevNextButtonsInverse` | components/CalendarBoard/index.tsx:29-41 | Prev after Next, and Next after Prev, is the identity |
| `CalendarBoard.ColumnEventsTotal` | components/CalendarBoard/index.tsx:49 | an absent key yields `[]` and a present key yields its list, never an undefined list |

## Behaviour worth noting

- One might expect the hold delay to arm once per entry into an edge zone. The code instead re-arms it on every pointer move. The effect depends on `clientOffset`, and its cleanup clears both timers before each re-run. So any pointer movement, even a purely vertical one inside the zone, cancels the delay or interval and re-arms the delay from zero (`EdgeDragWatcher.MoveInZoneRearms`, `EdgeDragWatcher.VerticalMoveScenario`). A still pointer keeps its timers (`EdgeDragWatcher.StillPointerKeepsTicking`).
- The zones overlap when the window is narrower than 100 pixels, not at 100 itself: at width 100 the conditions are x < 50 and x > 50.
- The calendar's mobile test is `maxWidth: 768`, which includes 768. The board's test is `innerWidth < 768`, which excludes it.

## Findings

| source | as written | input that shows it | evidently intended | confidence | as-written member | corrected member |
|---|---|---|---|---|---|---|
| components/Calendar/index.tsx:98-128 | `touchStartX` is a local of the swipe effect. The effect depends on `handleNext` and `handlePrev`, which are new functions on every render, so every render re-runs the effect with `touchStartX = 0`. | A touch starts at x = 300 on an element that stays in the container across renders, such as the board's background. Before it ends, the calendar renders again. The touch ends at x = 290. The delta is taken as 290 − 0 > 50, so `handlePrev` fires, although the finger moved 10 pixels left. Which renders can fall inside a gesture is not established here. One candidate is an `isMobile` flip when a rotation crosses 768 pixels. Another is a drop's state update committed before `touchend` reaches the container. An edge-hold navigation does not qualify, because it removes the dragged card, and with it the touch target, from the container. | A touch end is measured from the touch start of the same gesture. | not executed; low to medium (the reset follows from the text; a render between touchstart and touchend with the touch target still inside the container is unverified) | `Swipe.ReinstallLosesTouchStart` | `Swipe.KeptGestureClassified` |
| components/Calendar/index.tsx:105-122 | The swipe listeners sit on the board container and react to every touch inside it. No `isDragging` test and no target test filter them. Every card is inside the container, so a touch that drags a card records `touchStartX`. The drop's touchend then bubbles to the container and is classified as a swipe. | On desktop, touch-drag a card from the Monday column at x = 100 to the Wednesday column at x = 400. The drop puts the card last on Wednesday. The same touchend has a delta of 300 > 50, so `handlePrev` fires and the previous week is shown, without that Wednesday. A leftward drag calls `handleNext` in the same way. If the drop's render is committed before the touchend reaches the container, the first row's reset measures from 0 instead. The week then turns back for any end position beyond x = 50. | A touch that drives a card drag is a drop, not a swipe. | not executed; medium (the listeners and the bubbling follow from the text; that the touch backend lets touchstart and touchend reach the container is assumed) | `Calendar.TouchDropTurnsWeek`, `Calendar.TouchDropScenario` | `Calendar.TouchDropKeepsColumn` |

`Calendar.OnSwipe` measures each gesture from its own touch start, which is the corrected behaviour. `Calendar.OnTouchEnd` also ignores a touch that drives a drag.

## Left out

- Rendering, styling and animation: `CalendarModal`, `EventCard`, `DayColumn`, the header labels and the `Preview` generator.
- The react-dnd machinery: `DndProvider`, the multi-backend options, `useDrag`, `useDrop` and `useDragLayer`. A drop is a call to `Calendar.DropOnColumn` with the column's key. A touch drop is that call followed by the swipe listener's handling of the same touchend (`Calendar.TouchDropAsWritten`). The backend's own event handling is not modelled. The drag layer's `isDragging` and `clientOffset` are inputs to the watcher.
- Real timers and wall-clock time. `setTimeout` and `setInterval` firings are the inputs `DelayFire` and `IntervalFire`. Their 1000 ms durations appear only as the order of those inputs.
- `useMediaQuery` and `window.innerWidth` are browser input. `isMobile` and `width` are parameters. The board's `typeof window !== "undefined"` guard, which yields desktop during server rendering, is not modelled.
- date-fns `format` strings, time zones, and the UTC-versus-local parsing of `new Date("2024-03-11")`. The model uses integer day numbers and an injective key.
- React state batching, effect scheduling and `useRef` lag. On mobile, `currentDateRef.current` is taken to equal the current date.
- The selected-event modal state (`selectedEvent`) is presentation only.
- `next.config.ts`, `app/page.tsx`, and the event data and types modules. The data and types modules are not part of this model. The initial store is a parameter of `Calendar.Init`.
- `Calendar.OnSwipe`: models the corrected swipe, measured from the touch start of the same gesture. The as-written behaviour is modelled separately in `Swipe.StepAsWritten` and `Swipe.RunAsWritten`; see Findings.
- `EdgeDragWatcher.Render`: compares the offset by its coordinates, while React compares `clientOffset` by reference. The two agree whenever the drag layer hands back the same object for an unchanged position. A fresh object with unchanged coordinates would re-run the effect in the code but not in the model. Object identity is react-dnd's concern and outside this model.

=== FILE: calendar.dfy ===
/** The calendar component: the current date, the event store and the
    board's visibility, with the handlers that change them: next/previous,
    tapping a weekday, dropping a card on a column, the mount-time priming,
    swipes and edge-drag navigation. */
module Calendar {
  import opened Dates
  import opened EventStore
  import opened ViewWindow
  import Swipe
  import EdgeDragWatcher

  /** `useMediaQuery({ maxWidth: 768 })`: the media query `(max-width: 768px)` includes 768. */
  predicate IsMobile(width: int) {
    width <= 768
  }

  /** `new Date("2024-03-11")`, a Monday. */
  const InitialDate: Day := 19793

  lemma InitialDateIsMonday()
    ensures IsMonday(InitialDate)
    ensures StartOfWeek(InitialDate) == InitialDate
  {
  }

  datatype State = State(currentDate: Day, events: Store<DateKey>, showBoard: bool)

  function Init(events: Store<DateKey>): State {
    State(InitialDate, events, false)
  }

  function HandleNext(s: State, isMobile: bool): State {
    s.(currentDate := NextDate(s.currentDate, isMobile))
  }

  function HandlePrev(s: State, isMobile: bool): State {
    s.(currentDate := PrevDate(s.currentDate, isMobile))
  }

  /** Applies navigation signals from the swipe or edge handlers, in order. */
  function Navigate(s: State, isMobile: bool, navs: seq<Nav>): State {
    s.(currentDate := ApplyAll(s.currentDate, isMobile, navs))
  }

  /** `handlePrev` undoes `handleNext` and leaves events and visibility alone. */
  lemma HandlePrevUndoesNext(s: State, isMobile: bool)
    ensures HandlePrev(HandleNext(s, isMobile), isMobile) == s
    ensures HandleNext(HandlePrev(s, isMobile), isMobile) == s
  {
    PrevNextInverse(s.currentDate, isMobile);
  }

  /** The mount effect calls `handleNext()` at once ... */
  function MountEffect(s: State, isMobile: bool): State {
    HandleNext(s, isMobile)
  }

  /** ... and `handlePrev()` then `setShowBoard(true)` in a zero-delay timeout.
      Both handlers come from the first render's closure, so they share one `isMobile`. */
  function PrimingTimeout(s: State, isMobile: bool): State {
    HandlePrev(s, isMobile).(showBoard := true)
  }

  /** Priming is invisible: the board stays hidden until the timeout, which
      brings the date back to where it started and only then shows the board. */
  lemma PrimingRestoresDate(s: State, isMobile: bool)
    requires !s.showBoard
    ensures !MountEffect(s, isMobile).showBoard
    ensures PrimingTimeout(MountEffect(s, isMobile), isMobile) == s.(showBoard := true)
  {
    HandlePrevUndoesNext(s, isMobile);
  }

  /** A column of the grid: its day, the key it reads and drops to, and its events. */
  datatype Column = Column(date: Day, key: DateKey, events: seq<Event>)

  function ColumnFor(s: State, d: Day): Column {
    Column(d, FormatKey(d), EventsFor(s.events, FormatKey(d)))
  }

  /** The grid: one column for the current date on mobile, the current week on desktop. */
  function VisibleColumns(s: State, isMobile: bool): (r: seq<Column>)
    ensures isMobile ==> |r| == 1 && r[0].date == s.currentDate
    ensures !isMobile ==> |r| == 7 && IsMonday(r[0].date)
                          && forall i :: 0 < i < 7 ==> r[i].date == r[i - 1].date + 1
    ensures exists i :: 0 <= i < |r| && r[i].date == s.currentDate
    ensures forall i :: 0 <= i < |r| ==> r[i].key == FormatKey(r[i].date)
    ensures forall i :: 0 <= i < |r| ==> (r[i].key in s.events ==> r[i].events == s.events[r[i].key])
                                         && (r[i].key !in s.events ==> r[i].events == [])
  {
    if isMobile then [ColumnFor(s, s.currentDate)]
    else
      var week := WeekDates(s.currentDate);
      var r := seq(7, i requires 0 <= i < 7 => ColumnFor(s, week[i]));
      assert forall i :: 0 <= i < 7 ==> r[i].date == week[i];
      r
  }

  /** A column's drop handler: on mobile the key of `currentDateRef.current`
      (the current date), on desktop the column's own day. */
  function DropOnColumn(s: State, isMobile: bool, c: Column, e: Event): (r: State)
    ensures r.currentDate == s.currentDate && r.showBoard == s.showBoard
    ensures var target := if isMobile then FormatKey(s.currentDate) else c.key;
            && target in r.events
            && r.events[target] == Without(EventsFor(s.events, target), e.id) + [e]
            && forall k, i :: k in r.events && k != target && 0 <= i < |r.events[k]| ==> r.events[k][i].id != e.id
  {
    var target := if isMobile then FormatKey(s.currentDate) else c.key;
    s.(events := Move(s.events, target, e))
  }

  /** Dropping a card on a visible column shows it last in that column and in no
      other visible column; the date and visibility do not change. */
  lemma DropLandsInColumn(s: State, isMobile: bool, i: int, e: Event)
    requires 0 <= i < |VisibleColumns(s, isMobile)|
    ensures var c := VisibleColumns(s, isMobile)[i];
            var s' := DropOnColumn(s, isMobile, c, e);
            var after := VisibleColumns(s', isMobile);
            && s'.currentDate == s.currentDate && s'.showBoard == s.showBoard
            && |after| == |VisibleColumns(s, isMobile)|
            && after[i].events == Without(c.events, e.id) + [e]
            && forall j, x :: 0 <= j < |after| && j != i && x in after[j].events ==> x.id != e.id
  {
    var cols := VisibleColumns(s, isMobile);
    var c := cols[i];
    var s' := DropOnColumn(s, isMobile, c, e);
    var after := VisibleColumns(s', isMobile);
    if isMobile {
      assert c.key == FormatKey(s.currentDate);
    }
    forall j, x | 0 <= j < |after| && j != i && x in after[j].events
      ensures x.id != e.id
    {
      assert after[j].date != c.date by {
        if !isMobile {
          assert after[j].date == c.date + (j - i) by {
            ConsecutiveOffset(ColumnDates(cols), i, j);
            ConsecutiveOffset(ColumnDates(after), i, j);
          }
        }
      }
      FormatKeyInjective(after[j].date, c.date);
      if after[j].key in s.events {
        assert x in Without(s.events[after[j].key], e.id);
      }
    }
  }

  /** The dates of a run of columns, in order. */
  function ColumnDates(cols: seq<Column>): (r: seq<Day>)
    ensures |r| == |cols|
    ensures forall k :: 0 <= k < |cols| ==> r[k] == cols[k].date
  {
    seq(|cols|, k requires 0 <= k < |cols| => cols[k].date)
  }

  /** Tapping a weekday tab on mobile (`setCurrentDate(date)`) selects that day
      and keeps the same seven tabs. */
  function SelectDate(s: State, d: Day): (r: State)
    requires d in WeekDates(s.currentDate)
    ensures r.currentDate == d && r.events == s.events && r.showBoard == s.showBoard
    ensures WeekDates(r.currentDate) == WeekDates(s.currentDate)
  {
    WeekDatesStable(s.currentDate, d);
    s.(currentDate := d)
  }

  /** A touch gesture on the board, measured from the touch start it recorded.
      The listeners sit on the board container, so a swipe needs the board shown. */
  function OnSwipe(s: State, isMobile: bool, startX: real, endX: real): (r: State)
    requires s.showBoard
    ensures r.events == s.events
    ensures -Swipe.SwipeThreshold <= endX - startX <= Swipe.SwipeThreshold ==> r == s
    ensures endX - startX > Swipe.SwipeThreshold ==> r == HandlePrev(s, isMobile)
    ensures endX - startX < -Swipe.SwipeThreshold ==> r == HandleNext(s, isMobile)
  {
    assert [Prev][1..] == [] && [Next][1..] == [];
    Navigate(s, isMobile, Swipe.Classify(endX - startX))
  }

  /** On desktop the columns are the days of the current date's Monday-based week, in order. */
  lemma VisibleWeek(s: State, j: int)
    requires 0 <= j < 7
    ensures VisibleColumns(s, false)[j].date == StartOfWeek(s.currentDate) + j
  {
    var cols := VisibleColumns(s, false);
    var k :| 0 <= k < 7 && cols[k].date == s.currentDate;
    ConsecutiveOffset(ColumnDates(cols), 0, k);
    StartOfWeekUnique(cols[0].date, s.currentDate);
    ConsecutiveOffset(ColumnDates(cols), 0, j);
  }

  /** The touchend of a touch drag that drops a card, as written: the backend's
      drop runs first, and the same touchend then bubbles to the board
      container, whose swipe listener classifies the drag's horizontal travel. */
  function TouchDropAsWritten(s: State, isMobile: bool, c: Column, e: Event, startX: real, endX: real): State
    requires s.showBoard
  {
    OnSwipe(DropOnColumn(s, isMobile, c, e), isMobile, startX, endX)
  }

  /** As written, on desktop a touch drop that travels more than the swipe
      threshold also turns the week, and the column the card landed in leaves
      the screen: a drag to the right shows the previous week, one to the left
      the next week. */
  lemma TouchDropTurnsWeek(s: State, i: int, e: Event, startX: real, endX: real)
    requires s.showBoard
    requires 0 <= i < 7
    ensures var c := VisibleColumns(s, false)[i];
            var r := TouchDropAsWritten(s, false, c, e, startX, endX);
            && r.events == DropOnColumn(s, false, c, e).events
            && (endX - startX > Swipe.SwipeThreshold ==> r.currentDate == s.currentDate - 7)
            && (endX - startX < -Swipe.SwipeThreshold ==> r.currentDate == s.currentDate + 7)
            && (Swipe.Abs(endX - startX) > Swipe.SwipeThreshold ==>
                  forall j :: 0 <= j < |VisibleColumns(r, false)| ==> VisibleColumns(r, false)[j].date != c.date)
  {
    var c := VisibleColumns(s, false)[i];
    var r := TouchDropAsWritten(s, false, c, e, startX, endX);
    VisibleWeek(s, i);
    if Swipe.Abs(endX - startX) > Swipe.SwipeThreshold {
      forall j | 0 <= j < |VisibleColumns(r, false)|
        ensures VisibleColumns(r, false)[j].date != c.date
      {
        VisibleWeek(r, j);
        if endX - startX > Swipe.SwipeThreshold {
          assert StartOfWeek(r.currentDate) == StartOfWeek(s.currentDate) - 7;
        } else {
          assert StartOfWeek(r.currentDate) == StartOfWeek(s.currentDate) + 7;
        }
      }
    }
  }

  /** Touch-dragging a card from the Monday column at x = 100 to the Wednesday
      column at x = 400 on the first week: the card lands on Wednesday, and the
      same touchend turns the board to the previous week, where that Wednesday
      is not shown. */
  lemma TouchDropScenario(events: Store<DateKey>, e: Event)
    ensures var s := State(InitialDate, events, true);
            var wednesday := VisibleColumns(s, false)[2];
            var r := TouchDropAsWritten(s, false, wednesday, e, 100.0, 400.0);
            && wednesday.date == InitialDate + 2
            && EventsFor(r.events, FormatKey(InitialDate + 2)) == Without(EventsFor(events, FormatKey(InitialDate + 2)), e.id) + [e]
            && r.currentDate == InitialDate - 7
            && forall j :: 0 <= j < |VisibleColumns(r, false)| ==> VisibleColumns(r, false)[j].date != InitialDate + 2
  {
    var s := State(InitialDate, events, true);
    VisibleWeek(s, 2);
    TouchDropTurnsWeek(s, 2, e, 100.0, 400.0);
  }

  /** A corrected touchend: a touch that drives a drag is a drop, not a swipe. */
  function OnTouchEnd(s: State, isMobile: bool, startX: real, endX: real, dragging: bool): (r: State)
    requires s.showBoard
    ensures dragging ==> r == s
    ensures !dragging ==> r == OnSwipe(s, isMobile, startX, endX)
  {
    if dragging then s else OnSwipe(s, isMobile, startX, endX)
  }

  /** With the corrected touchend, a touch drop of any travel keeps the date, and
      the card shows last in the column it was dropped on. */
  lemma TouchDropKeepsColumn(s: State, isMobile: bool, i: int, e: Event, startX: real, endX: real)
    requires s.showBoard
    requires 0 <= i < |VisibleColumns(s, isMobile)|
    ensures var c := VisibleColumns(s, isMobile)[i];
            var r := OnTouchEnd(DropOnColumn(s, isMobile, c, e), isMobile, startX, endX, true);
            && r.currentDate == s.currentDate
            && VisibleColumns(r, isMobile)[i].events == Without(c.events, e.id) + [e]
  {
    DropLandsInColumn(s, isMobile, i, e);
  }

  /** The same signal `n` times moves the date `n` steps that way. */
  lemma RepeatedSignalMoves(anchor: Day, isMobile: bool, nav: Nav, n: nat)
    ensures ApplyAll(anchor, isMobile, EdgeDragWatcher.Repeat([nav], n))
            == if nav == Prev then anchor - n * Step(isMobile) else anchor + n * Step(isMobile)
  {
    var signals := EdgeDragWatcher.Repeat([nav], n);
    ApplyAllNet(anchor, isMobile, signals);
    EdgeDragWatcher.CountOfRepeated([nav], n, Next);
    EdgeDragWatcher.CountOfRepeated([nav], n, Prev);
    assert [nav][1..] == [];
    if nav == Prev {
      assert CountOf(signals, Next) == 0 && CountOf(signals, Prev) == n;
    } else {
      assert CountOf(signals, Next) == n && CountOf(signals, Prev) == 0;
    }
  }

  /** Holding a dragged card still at one edge for the delay and `ticks` more
      intervals moves the calendar `ticks + 1` steps that way. */
  lemma EdgeHoldMovesDate(s: State, isMobile: bool, w: EdgeDragWatcher.Watcher,
                          deps: EdgeDragWatcher.Deps, width: int, ticks: nat)
    requires EdgeDragWatcher.Inv(w)
    requires w.lastDeps != EdgeDragWatcher.Ran(deps)
    requires deps.isDragging && deps.offset.At? && deps.isMobile == isMobile
    requires EdgeDragWatcher.IsAtLeft(deps.offset.x) != EdgeDragWatcher.IsAtRight(deps.offset.x, width)
    ensures var fired := EdgeDragWatcher.Run(w, [EdgeDragWatcher.RenderWith(deps, width), EdgeDragWatcher.DelayFire]
                                                + EdgeDragWatcher.Ticks(ticks));
            var moved := (ticks + 1) * Step(isMobile);
            Navigate(s, isMobile, fired.signals).currentDate
              == if EdgeDragWatcher.IsAtLeft(deps.offset.x) then s.currentDate - moved else s.currentDate + moved
  {
    var left := EdgeDragWatcher.IsAtLeft(deps.offset.x);
    var edges := EdgeDragWatcher.Edges(left, EdgeDragWatcher.IsAtRight(deps.offset.x, width));
    EdgeDragWatcher.HoldAtEdge(w, deps, width, ticks);
    var nav := if left then Prev else Next;
    assert EdgeDragWatcher.Signals(edges) == [nav];
    RepeatedSignalMoves(s.currentDate, isMobile, nav, ticks + 1);
  }

  /** The end-to-end drop: with `2024-03-11: [E1]` and `2024-03-12: []`, dropping
      E1 on 2024-03-12 empties the first day and shows `[E1]` on the second. */
  lemma DropScenario(e1: Event)
    ensures var before: Store<DateKey> := map[FormatKey(InitialDate) := [e1], FormatKey(InitialDate + 1) := []];
            var after := HandleDropOn(Init(before), FormatKey(InitialDate + 1), e1).events;
            && EventsFor(after, FormatKey(InitialDate)) == []
            && EventsFor(after, FormatKey(InitialDate + 1)) == [e1]
  {
    assert Without([e1], e1.id) == [];
  }

  /** `handleDrop(targetDateStr, droppedEvent)` on the calendar's state. */
  function HandleDropOn(s: State, target: DateKey, e: Event): State {
    s.(events := Move(s.events, target, e))
  }
}

=== FILE: calendar_board.dfy ===
/** The simpler board variant: it receives the events and the current date,
    shows one day on narrow windows and the Monday-based week otherwise, and
    offers previous/next buttons. It has no drag-and-drop. */
module CalendarBoard {
  import opened Dates
  import opened EventStore
  import opened ViewWindow
  import Calendar

  /** `window.innerWidth < 768`: strict, unlike the calendar's `maxWidth: 768` query. */
  predicate IsMobile(width: int) {
    width < 768
  }

  /** The two width tests disagree at exactly one width. */
  lemma MobileTestsDiffer(width: int)
    ensures IsMobile(width) != Calendar.IsMobile(width) <==> width == 768
  {
  }

  /** `days`: `[currentDate]` when mobile, else `getWeekDates()`. */
  function Days(currentDate: Day, isMobile: bool): (r: seq<Day>)
    ensures isMobile ==> r == [currentDate]
    ensures !isMobile ==> |r| == 7 && IsMonday(r[0]) && currentDate in r
                          && forall i :: 0 < i < |r| ==> r[i] == r[i - 1] + 1
  {
    if isMobile then [currentDate] else WeekDates(currentDate)
  }

  /** The "Prev" button: `addDays(currentDate, isMobile ? -1 : -7)`. */
  function PrevClicked(currentDate: Day, isMobile: bool): (r: Day)
    ensures r == PrevDate(currentDate, isMobile)
  {
    AddDays(currentDate, if isMobile then -1 else -7)
  }

  /** The "Next" button: `addDays(currentDate, isMobile ? 1 : 7)`. */
  function NextClicked(currentDate: Day, isMobile: bool): (r: Day)
    ensures r == NextDate(currentDate, isMobile)
  {
    AddDays(currentDate, if isMobile then 1 else 7)
  }

  /** Prev after Next, and Next after Prev, come back to the same date. */
  lemma PrevNextButtonsInverse(currentDate: Day, isMobile: bool)
    ensures PrevClicked(NextClicked(currentDate, isMobile), isMobile) == currentDate
    ensures NextClicked(PrevClicked(currentDate, isMobile), isMobile) == currentDate
  {
    PrevNextInverse(currentDate, isMobile);
  }

  /** The events each `DayColumn` receives: `events[format(day)] || []`. An
      array is never falsy, so this is the stored list when the key is present. */
  function ColumnEvents(events: Store<DateKey>, currentDate: Day, isMobile: bool): (r: seq<seq<Event>>)
    ensures |r| == |Days(currentDate, isMobile)|
    ensures forall i :: 0 <= i < |r| ==> r[i] == EventsFor(events, FormatKey(Days(currentDate, isMobile)[i]))
  {
    var days := Days(currentDate, isMobile);
    seq(|days|, i requires 0 <= i < |days| => EventsFor(events, FormatKey(days[i])))
  }

  /** A key with no entry renders as an empty column, and a present key renders its list. */
  lemma ColumnEventsTotal(events: Store<DateKey>, currentDate: Day, isMobile: bool, i: int)
    requires 0 <= i < |Days(currentDate, isMobile)|
    ensures var k := FormatKey(Days(currentDate, isMobile)[i]);
            && (k !in events ==> ColumnEvents(events, currentDate, isMobile)[i] == [])
            && (k in events ==> ColumnEvents(events, currentDate, isMobile)[i] == events[k])
  {
  }

  /** The board and the calendar show the same week on desktop and the same day on mobile. */
  lemma DaysMatchCalendar(s: Calendar.State, isMobile: bool)
    ensures |Days(s.currentDate, isMobile)| == |Calendar.VisibleColumns(s, isMobile)|
    ensures forall i :: 0 <= i < |Days(s.currentDate, isMobile)|
              ==> Days(s.currentDate, isMobile)[i] == Calendar.VisibleColumns(s, isMobile)[i].date
  {
    if !isMobile {
      var days := Days(s.currentDate, isMobile);
      var cols := Calendar.VisibleColumns(s, isMobile);
      forall i | 0 <= i < 7 ensures days[i] == cols[i].date {
        ConsecutiveOffset(Calendar.ColumnDates(cols), 0, i);
        ConsecutiveOffset(days, 0, i);
        StartOfWeekUnique(days[0], s.currentDate);
        StartOfWeekUnique(cols[0].date, s.currentDate) by {
          var j :| 0 <= j < 7 && cols[j].date == s.currentDate;
          ConsecutiveOffset(Calendar.ColumnDates(cols), 0, j);
        }
      }
    }
  }
}

=== FILE: dates.dfy ===
/** Calendar days as integer day numbers, and the few date-fns operations the
    board relies on: adding and subtracting days, the weekday, the start of a
    Monday-based week, and the canonical `yyyy-MM-dd` key of a day. */
module Dates {

  /** A calendar day counted from 1970-01-01 (day 0, a Thursday); earlier days are negative. */
  type Day = int

  function AddDays(d: Day, n: int): Day { d + n }

  function SubDays(d: Day, n: int): Day { d - n }

  /** date-fns `getDay`: 0 is Sunday, 1 is Monday, ..., 6 is Saturday. */
  function JsDay(d: Day): (r: int)
    ensures 0 <= r < 7
  {
    (d + 4) % 7
  }

  predicate IsMonday(d: Day) {
    JsDay(d) == 1
  }

  /** date-fns `startOfWeek(d, { weekStartsOn: 1 })`: step back by
      `(day < weekStartsOn ? 7 : 0) + day - weekStartsOn` days. */
  function StartOfWeek(d: Day): (r: Day)
    ensures IsMonday(r)
    ensures r <= d < r + 7
  {
    var day := JsDay(d);
    var diff := (if day < 1 then 7 else 0) + day - 1;
    SubDays(d, diff)
  }

  /** Two days with the same weekday less than a week apart are the same day. */
  lemma SameWeekdayClose(a: Day, b: Day)
    requires JsDay(a) == JsDay(b)
    requires a <= b < a + 7
    ensures a == b
  {
    var q := (a + 4) / 7;
    var p := (b + 4) / 7;
    assert a + 4 == 7 * q + JsDay(a);
    assert b + 4 == 7 * p + JsDay(b);
    assert 7 * p - 7 * q < 7;
    assert 0 <= 7 * p - 7 * q;
  }

  /** A week has one Monday: the Monday of `d`'s week is the only Monday at most
      six days before `d`. */
  lemma StartOfWeekUnique(m: Day, d: Day)
    requires IsMonday(m)
    requires m <= d < m + 7
    ensures StartOfWeek(d) == m
  {
    var s := StartOfWeek(d);
    if s <= m {
      SameWeekdayClose(s, m);
    } else {
      SameWeekdayClose(m, s);
    }
  }

  /** Shifting a day by a whole week keeps its weekday. */
  lemma JsDayWeekShift(d: Day, k: int)
    ensures JsDay(d + 7 * k) == JsDay(d)
  {
    var q := (d + 4) / 7;
    assert d + 7 * k + 4 == 7 * (q + k) + JsDay(d);
  }

  /** The week of `d + 7` starts exactly one week after the week of `d`. */
  lemma StartOfWeekShift(d: Day)
    ensures StartOfWeek(AddDays(d, 7)) == StartOfWeek(d) + 7
  {
    var m := StartOfWeek(d) + 7;
    JsDayWeekShift(StartOfWeek(d), 1);
    StartOfWeekUnique(m, d + 7);
  }

  /** The canonical `yyyy-MM-dd` key of a day. The text itself is left abstract:
      the board relies only on distinct days having distinct keys. */
  datatype DateKey = DateKey(dayNumber: int)

  function FormatKey(d: Day): DateKey {
    DateKey(d)
  }

  lemma FormatKeyInjective(a: Day, b: Day)
    ensures FormatKey(a) == FormatKey(b) <==> a == b
  {
  }
}

=== FILE: edge_drag_watcher.dfy ===
/** The edge-drag watcher: while a card is dragged near the left or right edge
    of the window it navigates, first after a delay and then at a fixed
    interval. Timers are explicit state: a pending delay timer, an active
    interval, and the edges their callbacks captured. Timer firings are
    discrete inputs; every transition returns the navigation signals it emits. */
module EdgeDragWatcher {
  import opened Dates
  import opened ViewWindow

  /** Distance from either edge, in pixels, inside which a drag counts as at that edge. */
  const EdgeThreshold: real := 50.0

  predicate IsAtLeft(x: real) {
    x < EdgeThreshold
  }

  predicate IsAtRight(x: real, width: int) {
    x > width as real - EdgeThreshold
  }

  /** Both edge zones overlap exactly when the window is narrower than 100 pixels. */
  lemma BothEdgesIffNarrow(width: int)
    ensures (exists x :: IsAtLeft(x) && IsAtRight(x, width)) <==> width < 100
  {
    if width < 100 {
      var x := width as real / 2.0;
      assert IsAtLeft(x) && IsAtRight(x, width);
    }
  }

  /** The `isAtLeft` / `isAtRight` values a timer callback closed over. */
  datatype Edges = Edges(atLeft: bool, atRight: bool)

  /** What one timer callback does: `moveToPrev` if at the left edge, then
      `moveToNext` if at the right edge. */
  function Signals(c: Edges): (r: seq<Nav>)
    ensures |r| == (if c.atLeft then 1 else 0) + (if c.atRight then 1 else 0)
    ensures Prev in r <==> c.atLeft
    ensures Next in r <==> c.atRight
    ensures c.atLeft && c.atRight ==> r == [Prev, Next]
  {
    (if c.atLeft then [Prev] else []) + (if c.atRight then [Next] else [])
  }

  /** The drag layer's client offset, absent when the monitor reports none. Only
      `x` decides the edges, but both coordinates are part of the effect's dependencies. */
  datatype Offset = NoOffset | At(x: real, y: real)

  /** The effect's dependency list `[isDragging, clientOffset, isMobile]`. */
  datatype Deps = Deps(isDragging: bool, offset: Offset, isMobile: bool)

  datatype LastRun = NotRun | Ran(deps: Deps)

  /** The watcher's state between callbacks.
      - `delayPending`: `edgeDelayTimerRef.current` holds a timer;
      - `intervalActive`: `edgeIntervalRef.current` holds an interval;
      - `captured`: the edges the pending callbacks closed over;
      - `cleanupRegistered`: the last effect run returned its `clearTimers` cleanup;
      - `lastDeps`: the dependencies of the last effect run. */
  datatype Watcher = Watcher(delayPending: bool, intervalActive: bool, captured: Edges,
                             cleanupRegistered: bool, lastDeps: LastRun)

  const Mounted: Watcher := Watcher(false, false, Edges(false, false), false, NotRun)

  /** The reachable states: at most one timer at a time, every live timer has an
      edge to report and a registered cleanup that will cancel it. */
  predicate Inv(w: Watcher) {
    && !(w.delayPending && w.intervalActive)
    && (w.delayPending || w.intervalActive ==> w.cleanupRegistered && (w.captured.atLeft || w.captured.atRight))
  }

  /** `clearTimers`: cancel whichever timers are live and drop both references. */
  function ClearTimers(w: Watcher): (r: Watcher)
    ensures !r.delayPending && !r.intervalActive
    ensures r.(delayPending := w.delayPending, intervalActive := w.intervalActive) == w
  {
    w.(delayPending := false, intervalActive := false)
  }

  /** Clearing twice is clearing once, and clearing keeps the invariant. */
  lemma ClearTimersIdempotent(w: Watcher)
    ensures ClearTimers(ClearTimers(w)) == ClearTimers(w)
    ensures Inv(ClearTimers(w))
  {
  }

  /** The body of the effect, run after the previous run's cleanup. */
  function EffectBody(w: Watcher, isDragging: bool, offset: Offset, width: int): (r: Watcher)
    ensures r.delayPending && !w.delayPending ==> !w.intervalActive
  {
    if !isDragging || offset.NoOffset? then
      ClearTimers(w).(cleanupRegistered := false)
    else
      var left := IsAtLeft(offset.x);
      var right := IsAtRight(offset.x, width);
      var armed :=
        if left || right then
          if !w.delayPending && !w.intervalActive then w.(delayPending := true, captured := Edges(left, right))
          else w
        else
          ClearTimers(w);
      armed.(cleanupRegistered := true)
  }

  /** One run of the effect: the previous run's cleanup (if it returned one), then the body. */
  function EffectRun(w: Watcher, isDragging: bool, offset: Offset, width: int): (r: Watcher)
    ensures !isDragging || offset.NoOffset? ==> !r.delayPending && !r.intervalActive && !r.cleanupRegistered
    ensures isDragging && offset.At? && !IsAtLeft(offset.x) && !IsAtRight(offset.x, width)
            ==> !r.delayPending && !r.intervalActive
    ensures Inv(w) && isDragging && offset.At? && (IsAtLeft(offset.x) || IsAtRight(offset.x, width))
            ==> r.delayPending && !r.intervalActive
                && r.captured == Edges(IsAtLeft(offset.x), IsAtRight(offset.x, width))
    ensures Inv(w) ==> Inv(r)
  {
    var cleaned := if w.cleanupRegistered then ClearTimers(w) else w;
    EffectBody(cleaned.(cleanupRegistered := false), isDragging, offset, width)
  }

  /** A render: React re-runs the effect only when a dependency changed. The window
      width is read when the effect runs. */
  function Render(w: Watcher, deps: Deps, width: int): (r: Watcher)
    ensures r.lastDeps == Ran(deps)
    ensures w.lastDeps == Ran(deps) ==> r == w
    ensures w.lastDeps != Ran(deps) && Inv(w) ==> !r.intervalActive
    ensures Inv(w) ==> Inv(r)
  {
    if w.lastDeps == Ran(deps) then w
    else EffectRun(w, deps.isDragging, deps.offset, width).(lastDeps := Ran(deps))
  }

  /** Unmounting runs the last cleanup. */
  function Unmount(w: Watcher): (r: Watcher)
    ensures Inv(w) ==> !r.delayPending && !r.intervalActive
  {
    if w.cleanupRegistered then ClearTimers(w).(cleanupRegistered := false) else w
  }

  datatype Fired = Fired(watcher: Watcher, signals: seq<Nav>)

  /** The delay timer fires: one navigation per captured edge, then the interval
      starts and the delay reference is dropped. A cancelled timer never fires. */
  function DelayFires(w: Watcher): (r: Fired)
    ensures w.delayPending ==> && r.signals == Signals(w.captured)
                               && !r.watcher.delayPending && r.watcher.intervalActive
                               && r.watcher.captured == w.captured
    ensures !w.delayPending ==> r == Fired(w, [])
    ensures Inv(w) && w.delayPending ==> 1 <= |r.signals| <= 2
    ensures Inv(w) ==> Inv(r.watcher)
  {
    if !w.delayPending then Fired(w, [])
    else Fired(w.(delayPending := false, intervalActive := true), Signals(w.captured))
  }

  /** The interval ticks: the same captured edges navigate again. */
  function IntervalTick(w: Watcher): (r: Fired)
    ensures r.watcher == w
    ensures w.intervalActive ==> r.signals == Signals(w.captured)
    ensures !w.intervalActive ==> r.signals == []
    ensures Inv(w) && w.intervalActive ==> 1 <= |r.signals| <= 2
  {
    if w.intervalActive then Fired(w, Signals(w.captured)) else Fired(w, [])
  }

  datatype Input = RenderWith(deps: Deps, width: int) | UnmountNow | DelayFire | IntervalFire

  function Transition(w: Watcher, input: Input): Fired {
    match input
    case RenderWith(deps, width) => Fired(Render(w, deps, width), [])
    case UnmountNow => Fired(Unmount(w), [])
    case DelayFire => DelayFires(w)
    case IntervalFire => IntervalTick(w)
  }

  function Run(w: Watcher, inputs: seq<Input>): Fired
    decreases |inputs|
  {
    if inputs == [] then Fired(w, [])
    else
      var first := Transition(w, inputs[0]);
      var rest := Run(first.watcher, inputs[1..]);
      Fired(rest.watcher, first.signals + rest.signals)
  }

  /** Every transition keeps the invariant. */
  lemma TransitionPreservesInv(w: Watcher, input: Input)
    requires Inv(w)
    ensures Inv(Transition(w, input).watcher)
  {
  }

  lemma {:induction false} RunPreservesInv(w: Watcher, inputs: seq<Input>)
    requires Inv(w)
    ensures Inv(Run(w, inputs).watcher)
    decreases |inputs|
  {
    if inputs != [] {
      TransitionPreservesInv(w, inputs[0]);
      RunPreservesInv(Transition(w, inputs[0]).watcher, inputs[1..]);
    }
  }

  predicate IsTimerInput(input: Input) {
    input.DelayFire? || input.IntervalFire?
  }

  /** With no live timer, timer firings emit nothing and change nothing. */
  lemma {:induction false} QuietWithoutTimers(w: Watcher, inputs: seq<Input>)
    requires !w.delayPending && !w.intervalActive
    requires forall i :: 0 <= i < |inputs| ==> IsTimerInput(inputs[i])
    ensures Run(w, inputs) == Fired(w, [])
    decreases |inputs|
  {
    if inputs != [] {
      QuietWithoutTimers(w, inputs[1..]);
    }
  }

  /** Ending the drag cancels every timer: no signal fires after release, however
      long the clock keeps running. */
  lemma {:induction false} NoSignalAfterRelease(w: Watcher, deps: Deps, width: int, later: seq<Input>)
    requires Inv(w)
    requires !deps.isDragging
    requires w.lastDeps != Ran(deps)
    requires forall i :: 0 <= i < |later| ==> IsTimerInput(later[i])
    ensures Run(w, [RenderWith(deps, width)] + later).signals == []
  {
    var released := Render(w, deps, width);
    assert ([RenderWith(deps, width)] + later)[1..] == later;
    QuietWithoutTimers(released, later);
  }

  /** After unmounting no timer fires either. */
  lemma {:induction false} NoSignalAfterUnmount(w: Watcher, later: seq<Input>)
    requires Inv(w)
    requires forall i :: 0 <= i < |later| ==> IsTimerInput(later[i])
    ensures Run(w, [UnmountNow] + later).signals == []
  {
    assert ([UnmountNow] + later)[1..] == later;
    QuietWithoutTimers(Unmount(w), later);
  }

  function Ticks(n: nat): (r: seq<Input>)
    ensures |r| == n
    ensures forall i :: 0 <= i < n ==> r[i] == IntervalFire
  {
    seq(n, _ => IntervalFire)
  }

  function Repeat(s: seq<Nav>, n: nat): (r: seq<Nav>)
    ensures |r| == n * |s|
    decreases n
  {
    if n == 0 then [] else s + Repeat(s, n - 1)
  }

  /** Repeating a run of signals repeats its counts. */
  lemma {:induction false} CountOfRepeated(s: seq<Nav>, n: nat, nav: Nav)
    ensures CountOf(Repeat(s, n), nav) == n * CountOf(s, nav)
    decreases n
  {
    if n > 0 {
      CountOfConcat(s, Repeat(s, n - 1), nav);
      CountOfRepeated(s, n - 1, nav);
    }
  }

  /** While the interval is active each tick repeats the captured edges' signals. */
  lemma {:induction false} TicksRepeat(w: Watcher, n: nat)
    requires w.intervalActive
    ensures Run(w, Ticks(n)) == Fired(w, Repeat(Signals(w.captured), n))
    decreases n
  {
    if n > 0 {
      assert Ticks(n)[1..] == Ticks(n - 1);
      TicksRepeat(w, n - 1);
    }
  }

  /** Holding a drag still in an edge zone: the delay fires once, then each tick
      fires again, always in the direction seen when the delay was armed. */
  lemma HoldAtEdge(w: Watcher, deps: Deps, width: int, ticks: nat)
    requires Inv(w)
    requires w.lastDeps != Ran(deps)
    requires deps.isDragging && deps.offset.At?
    requires IsAtLeft(deps.offset.x) || IsAtRight(deps.offset.x, width)
    ensures Run(w, [RenderWith(deps, width), DelayFire] + Ticks(ticks)).signals
            == Repeat(Signals(Edges(IsAtLeft(deps.offset.x), IsAtRight(deps.offset.x, width))), ticks + 1)
  {
    var inputs := [RenderWith(deps, width), DelayFire] + Ticks(ticks);
    var armed := Render(w, deps, width);
    var firing := DelayFires(armed);
    assert inputs[1..] == [DelayFire] + Ticks(ticks);
    assert inputs[1..][1..] == Ticks(ticks);
    TicksRepeat(firing.watcher, ticks);
  }

  /** A render whose dependencies did not change does not re-run the effect:
      the interval keeps ticking in the captured direction, even if the window
      was resized in between, since the width is not a dependency. */
  lemma {:induction false} StillPointerKeepsTicking(w: Watcher, deps: Deps, width: int, n: nat)
    requires w.intervalActive
    requires w.lastDeps == Ran(deps)
    ensures Run(w, [RenderWith(deps, width)] + Ticks(n)) == Fired(w, Repeat(Signals(w.captured), n))
  {
    assert ([RenderWith(deps, width)] + Ticks(n))[1..] == Ticks(n);
    TicksRepeat(w, n);
  }

  /** Any change of a dependency, in particular any pointer movement inside the
      zone (horizontal or vertical), re-runs the effect. Its cleanup cancels the
      running interval, so the next tick is silent, and the delay starts again
      from zero with the edges at the new position. */
  lemma MoveInZoneRearms(w: Watcher, deps: Deps, width: int)
    requires Inv(w) && w.intervalActive
    requires w.lastDeps != Ran(deps)
    requires deps.isDragging && deps.offset.At?
    requires IsAtLeft(deps.offset.x) || IsAtRight(deps.offset.x, width)
    ensures var moved := Render(w, deps, width);
            && moved.delayPending && !moved.intervalActive
            && moved.captured == Edges(IsAtLeft(deps.offset.x), IsAtRight(deps.offset.x, width))
    ensures Run(w, [RenderWith(deps, width), IntervalFire]).signals == []
  {
    var moved := Render(w, deps, width);
    assert [RenderWith(deps, width), IntervalFire][1..] == [IntervalFire];
    assert [IntervalFire][1..] == [];
    assert Run(moved, [IntervalFire]).signals == IntervalTick(moved).signals;
  }

  /** Held at (10, 100) through the delay, then moved straight down to (10, 200):
      the move cancels the interval, so the tick that follows is silent and only
      the delay's `Prev` is emitted. */
  lemma VerticalMoveScenario()
    ensures Run(Mounted, [RenderWith(Deps(true, At(10.0, 100.0), false), 1280), DelayFire,
                          RenderWith(Deps(true, At(10.0, 200.0), false), 1280), IntervalFire]).signals
            == [Prev]
  {
    var d1 := Deps(true, At(10.0, 100.0), false);
    var d2 := Deps(true, At(10.0, 200.0), false);
    var inputs := [RenderWith(d1, 1280), DelayFire, RenderWith(d2, 1280), IntervalFire];
    assert inputs[1..] == [DelayFire, RenderWith(d2, 1280), IntervalFire];
    assert inputs[1..][1..] == [RenderWith(d2, 1280), IntervalFire];
    var held := DelayFires(Render(Mounted, d1, 1280)).watcher;
    MoveInZoneRearms(held, d2, 1280);
  }

  /** A window narrower than 100 pixels can put a drag in both zones; each
      firing then navigates back and forth and the anchor does not move. */
  lemma BothEdgesCancel(anchor: Day, isMobile: bool)
    ensures Signals(Edges(true, true)) == [Prev, Next]
    ensures ApplyAll(anchor, isMobile, Signals(Edges(true, true))) == anchor
  {
    assert [Prev, Next][1..] == [Next];
    PrevNextInverse(anchor, isMobile);
  }

  /** Holding 2.5 seconds at the left edge with a 1-second delay and a 1-second
      interval: the delay fires at 1 s and the interval at 2 s, two `Prev`s. */
  lemma HoldScenario()
    ensures Run(Mounted, [RenderWith(Deps(true, At(10.0, 100.0), false), 1280), DelayFire, IntervalFire]).signals
            == [Prev, Prev]
  {
    HoldAtEdge(Mounted, Deps(true, At(10.0, 100.0), false), 1280, 1);
    assert [RenderWith(Deps(true, At(10.0, 100.0), false), 1280), DelayFire] + Ticks(1)
           == [RenderWith(Deps(true, At(10.0, 100.0), false), 1280), DelayFire, IntervalFire];
  }

  /** Releasing before the delay elapses: nothing fires, now or later. */
  lemma ReleaseScenario()
    ensures Run(Mounted, [RenderWith(Deps(true, At(10.0, 100.0), false), 1280),
                          RenderWith(Deps(false, NoOffset, false), 1280),
                          DelayFire, IntervalFire]).signals == []
  {
    var inputs := [RenderWith(Deps(true, At(10.0, 100.0), false), 1280),
                   RenderWith(Deps(false, NoOffset, false), 1280),
                   DelayFire, IntervalFire];
    var held := Render(Mounted, Deps(true, At(10.0, 100.0), false), 1280);
    assert inputs[1..] == [RenderWith(Deps(false, NoOffset, false), 1280)] + [DelayFire, IntervalFire];
    NoSignalAfterRelease(held, Deps(false, NoOffset, false), 1280, [DelayFire, IntervalFire]);
  }
}

=== FILE: event_store.dfy ===
/** The calendar's event store: a map from a day key to the ordered list of
    events shown on that day, and the drop handler that moves an event to a
    new day. The key type is a parameter; the calendar uses `Dates.DateKey`. */
module EventStore {

  type EventId = string

  /** An event card. Only `id` matters to the store; the other fields are carried unchanged. */
  datatype Event = Event(id: EventId, title: string, time: string, description: string, imageUrl: string)

  type Store<K> = map<K, seq<Event>>

  /** `bucket.filter((e) => e.id !== id)`. */
  function Without(bucket: seq<Event>, id: EventId): (r: seq<Event>)
    ensures |r| <= |bucket|
    ensures forall x {:trigger x in r} :: x in r <==> x in bucket && x.id != id
    ensures forall i :: 0 <= i < |r| ==> r[i].id != id
    decreases |bucket|
  {
    if bucket == [] then []
    else if bucket[0].id == id then Without(bucket[1..], id)
    else [bucket[0]] + Without(bucket[1..], id)
  }

  /** Filtering distributes over concatenation: what survives from `a` stays in
      front of what survives from `b`. */
  lemma {:induction false} WithoutConcat(a: seq<Event>, b: seq<Event>, id: EventId)
    ensures Without(a + b, id) == Without(a, id) + Without(b, id)
    decreases |a|
  {
    if a == [] {
      assert a + b == b;
    } else {
      assert (a + b)[1..] == a[1..] + b;
      WithoutConcat(a[1..], b, id);
    }
  }

  /** Filtering a bucket that does not hold `id` changes nothing. */
  lemma {:induction false} WithoutAbsent(bucket: seq<Event>, id: EventId)
    requires forall x :: x in bucket ==> x.id != id
    ensures Without(bucket, id) == bucket
    decreases |bucket|
  {
    if bucket != [] {
      WithoutAbsent(bucket[1..], id);
    }
  }

  /** Filtering twice by the same id is filtering once. */
  lemma WithoutIdempotent(bucket: seq<Event>, id: EventId)
    ensures Without(Without(bucket, id), id) == Without(bucket, id)
  {
    WithoutAbsent(Without(bucket, id), id);
  }

  /** An event that survives the filter sits, in the result, right after
      whatever survived from the events before it. */
  lemma WithoutAt(bucket: seq<Event>, id: EventId, i: int)
    requires 0 <= i < |bucket| && bucket[i].id != id
    ensures |Without(bucket[..i], id)| < |Without(bucket, id)|
    ensures Without(bucket, id)[|Without(bucket[..i], id)|] == bucket[i]
  {
    assert bucket == bucket[..i] + bucket[i..];
    WithoutConcat(bucket[..i], bucket[i..], id);
    assert bucket[i..][0] == bucket[i];
    assert bucket[i..][1..] == bucket[i + 1..];
  }

  /** A surviving event at `i` makes the survivors of `bucket[..j]` outnumber
      those of `bucket[..i]` for every later `j`. */
  lemma WithoutPrefixGrows(bucket: seq<Event>, id: EventId, i: int, j: int)
    requires 0 <= i < j <= |bucket| && bucket[i].id != id
    ensures |Without(bucket[..i], id)| < |Without(bucket[..j], id)|
  {
    var pre := bucket[..j];
    assert pre[..i] == bucket[..i];
    WithoutAt(pre, id, i);
  }

  /** Two surviving events keep their relative order. */
  lemma WithoutKeepsOrder(bucket: seq<Event>, id: EventId, i: int, j: int)
    requires 0 <= i < j < |bucket|
    requires bucket[i].id != id && bucket[j].id != id
    ensures exists i', j' :: 0 <= i' < j' < |Without(bucket, id)|
                             && Without(bucket, id)[i'] == bucket[i]
                             && Without(bucket, id)[j'] == bucket[j]
  {
    WithoutAt(bucket, id, i);
    WithoutAt(bucket, id, j);
    WithoutPrefixGrows(bucket, id, i, j);
    var i', j' := |Without(bucket[..i], id)|, |Without(bucket[..j], id)|;
    assert Without(bucket, id)[i'] == bucket[i] && Without(bucket, id)[j'] == bucket[j];
  }

  /** The events stored under `k`, or no events when `k` has no entry
      (`store[k] ?? []`): a lookup never fails. */
  function EventsFor<K>(store: Store<K>, k: K): seq<Event> {
    if k in store then store[k] else []
  }

  /** The drop handler: strip `e.id` from every bucket, then append `e` to the
      target bucket, creating it when absent. */
  function Move<K>(store: Store<K>, target: K, e: Event): (r: Store<K>)
    ensures r.Keys == store.Keys + {target}
    ensures forall k :: k in store && k != target ==> r[k] == Without(store[k], e.id)
    ensures r[target] == Without(EventsFor(store, target), e.id) + [e]
  {
    var stripped := map k | k in store :: Without(store[k], e.id);
    stripped[target := EventsFor(stripped, target) + [e]]
  }

  /** No two positions of a bucket hold the same id. */
  ghost predicate DistinctIds(bucket: seq<Event>) {
    forall i, j :: 0 <= i < j < |bucket| ==> bucket[i].id != bucket[j].id
  }

  /** The ids of a bucket's events. */
  ghost function IdsOf(bucket: seq<Event>): set<EventId> {
    set x | x in bucket :: x.id
  }

  /** Every id sits at most once in at most one bucket. */
  ghost predicate IdsUnique<K>(store: Store<K>) {
    && (forall k :: k in store ==> DistinctIds(store[k]))
    && (forall k1, k2 :: k1 in store && k2 in store && k1 != k2 ==> IdsOf(store[k1]) !! IdsOf(store[k2]))
  }

  /** Filtering removes exactly the dropped id from a bucket's ids. */
  lemma WithoutIds(bucket: seq<Event>, id: EventId)
    ensures IdsOf(Without(bucket, id)) == IdsOf(bucket) - {id}
  {
    var w := Without(bucket, id);
    forall i | i in IdsOf(bucket) - {id} ensures i in IdsOf(w) {
      var x :| x in bucket && x.id == i;
      assert x in w;
    }
  }

  lemma {:induction false} WithoutKeepsDistinct(bucket: seq<Event>, id: EventId)
    requires DistinctIds(bucket)
    ensures DistinctIds(Without(bucket, id))
    decreases |bucket|
  {
    if bucket != [] {
      assert DistinctIds(bucket[1..]) by {
        forall i, j | 0 <= i < j < |bucket[1..]|
          ensures bucket[1..][i].id != bucket[1..][j].id
        {
          assert bucket[1..][i] == bucket[i + 1] && bucket[1..][j] == bucket[j + 1];
        }
      }
      WithoutKeepsDistinct(bucket[1..], id);
      var rest := Without(bucket[1..], id);
      if bucket[0].id != id {
        forall x | x in rest ensures x.id != bucket[0].id {
          var j :| 1 <= j < |bucket| && bucket[j] == x by {
            assert x in bucket[1..];
            var j0 :| 0 <= j0 < |bucket[1..]| && bucket[1..][j0] == x;
            assert bucket[j0 + 1] == x;
          }
        }
        var r := [bucket[0]] + rest;
        forall i, j | 0 <= i < j < |r| ensures r[i].id != r[j].id {
          if i == 0 {
            assert r[j] == rest[j - 1];
            assert r[j] in rest;
          } else {
            assert r[i] == rest[i - 1] && r[j] == rest[j - 1];
          }
        }
      }
    }
  }

  /** After a move, `e.id` occurs exactly once in the whole store: as the last
      event of the target bucket. */
  lemma MoveLocatesOnce<K>(store: Store<K>, target: K, e: Event)
    ensures var r := Move(store, target, e);
            && r[target][|r[target]| - 1] == e
            && forall k, i :: k in r && 0 <= i < |r[k]| && r[k][i].id == e.id
                 ==> k == target && i == |r[target]| - 1
  {
    var r: Store<K> := Move(store, target, e);
    var w := Without(EventsFor(store, target), e.id);
    forall i | 0 <= i < |w| ensures r[target][i].id != e.id {
      assert r[target][i] == w[i];
    }
  }

  /** The target bucket after a move has distinct ids when it had them before. */
  lemma MoveTargetDistinct<K>(store: Store<K>, target: K, e: Event)
    requires target in store ==> DistinctIds(store[target])
    ensures DistinctIds(Move(store, target, e)[target])
  {
    var w := Without(EventsFor(store, target), e.id);
    if target in store {
      WithoutKeepsDistinct(store[target], e.id);
    }
    var t := w + [e];
    assert Move(store, target, e)[target] == t;
    forall i, j | 0 <= i < j < |t| ensures t[i].id != t[j].id {
      assert t[i] == w[i];
      if j == |w| {
        assert w[i] in w;
      } else {
        assert t[j] == w[j];
      }
    }
  }

  /** The ids of each bucket after a move: the old ids without the dropped id,
      plus the dropped id in the target. */
  lemma MoveIds<K>(store: Store<K>, target: K, e: Event, k: K)
    requires k in Move(store, target, e)
    ensures k != target ==> IdsOf(Move(store, target, e)[k]) == IdsOf(store[k]) - {e.id}
    ensures k == target ==> IdsOf(Move(store, target, e)[k]) == IdsOf(EventsFor(store, target)) - {e.id} + {e.id}
  {
    if k == target {
      var w := Without(EventsFor(store, target), e.id);
      WithoutIds(EventsFor(store, target), e.id);
      var t := Move(store, target, e)[k];
      assert t == w + [e];
      assert IdsOf(t) == IdsOf(w) + {e.id} by {
        forall i | i in IdsOf(t) ensures i in IdsOf(w) + {e.id} {
          var x :| x in t && x.id == i;
          if x != e {
            assert x in w;
          }
        }
        forall i | i in IdsOf(w) + {e.id} ensures i in IdsOf(t) {
          if i == e.id {
            assert e in t;
          } else {
            var x :| x in w && x.id == i;
            assert x in t;
          }
        }
      }
    } else {
      WithoutIds(store[k], e.id);
    }
  }

  /** A move keeps every id in at most one bucket and at most once in it. */
  lemma {:induction false} MovePreservesUnique<K>(store: Store<K>, target: K, e: Event)
    requires IdsUnique(store)
    ensures IdsUnique(Move(store, target, e))
  {
    var r: Store<K> := Move(store, target, e);
    MoveTargetDistinct(store, target, e);
    forall k | k in r && k != target ensures DistinctIds(r[k]) {
      WithoutKeepsDistinct(store[k], e.id);
    }
    forall k1: K, k2: K | k1 in r && k2 in r && k1 != k2
      ensures IdsOf(r[k1]) !! IdsOf(r[k2])
    {
      MoveIds(store, target, e, k1);
      MoveIds(store, target, e, k2);
    }
  }

  /** Dropping an event the store does not hold just appends it to the target. */
  lemma MoveFresh<K>(store: Store<K>, target: K, e: Event)
    requires forall k, x :: k in store && x in store[k] ==> x.id != e.id
    ensures Move(store, target, e) == store[target := EventsFor(store, target) + [e]]
  {
    forall k | k in store {
      WithoutAbsent(store[k], e.id);
    }
  }

  /** Dropping the same event on the same day twice is dropping it once. */
  lemma MoveIdempotent<K>(store: Store<K>, target: K, e: Event)
    ensures Move(Move(store, target, e), target, e) == Move(store, target, e)
  {
    var r: Store<K> := Move(store, target, e);
    var r2: Store<K> := Move(r, target, e);
    forall k | k in r ensures k in r2 && r2[k] == r[k] {
      if k == target {
        var w := Without(EventsFor(store, target), e.id);
        assert EventsFor(r, target) == w + [e];
        WithoutConcat(w, [e], e.id);
        WithoutIdempotent(EventsFor(store, target), e.id);
        assert Without([e], e.id) == [];
      } else {
        WithoutIdempotent(store[k], e.id);
      }
    }
    assert r2.Keys == r.Keys;
  }

  /** Applies a sequence of drops in order. */
  function MoveAll<K>(store: Store<K>, drops: seq<(K, Event)>): Store<K>
    decreases |drops|
  {
    if drops == [] then store
    else MoveAll(Move(store, drops[0].0, drops[0].1), drops[1..])
  }

  /** However many drops happen, every id stays in at most one bucket. */
  lemma {:induction false} MoveAllPreservesUnique<K>(store: Store<K>, drops: seq<(K, Event)>)
    requires IdsUnique(store)
    ensures IdsUnique(MoveAll(store, drops))
    decreases |drops|
  {
    if drops != [] {
      MovePreservesUnique(store, drops[0].0, drops[0].1);
      MoveAllPreservesUnique(Move(store, drops[0].0, drops[0].1), drops[1..]);
    }
  }

  /** Keys are never removed, and every drop target gets a key. */
  lemma {:induction false} MoveAllKeys<K>(store: Store<K>, drops: seq<(K, Event)>)
    ensures store.Keys <= MoveAll(store, drops).Keys
    ensures forall i :: 0 <= i < |drops| ==> drops[i].0 in MoveAll(store, drops).Keys
    decreases |drops|
  {
    if drops != [] {
      var next := Move(store, drops[0].0, drops[0].1);
      MoveAllKeys(next, drops[1..]);
      forall i | 1 <= i < |drops| ensures drops[i].0 in MoveAll(store, drops).Keys {
        assert drops[1..][i - 1] == drops[i];
      }
    }
  }

  /** The lookup is total: a day with an entry reads as its list, any other day as no events. */
  lemma EventsForTotal<K>(store: Store<K>, k: K)
    ensures k in store ==> EventsFor(store, k) == store[k]
    ensures k !in store ==> EventsFor(store, k) == []
  {
  }

  /** Read through the `?? []` lookup, a drop filters every day's list, known
      or not, and appends the card to the target's. */
  lemma MoveLookup<K>(store: Store<K>, target: K, e: Event, k: K)
    ensures EventsFor(Move(store, target, e), k)
            == if k == target then Without(EventsFor(store, k), e.id) + [e]
               else Without(EventsFor(store, k), e.id)
  {
    if k !in store && k != target {
      assert Without([], e.id) == [];
    }
  }
}

=== FILE: swipe.dfy ===
/** The calendar's swipe navigation: one evaluation of the horizontal touch
    delta at touch end, and the closure state the touch listeners share. */
module Swipe {
  import opened Dates
  import opened ViewWindow

  /** A swipe must move the finger strictly more than this many pixels. */
  const SwipeThreshold: real := 50.0

  function Abs(x: real): real {
    if x < 0.0 then -x else x
  }

  /** The decision `onTouchEnd` takes on `diff = touchEndX - touchStartX`. */
  function Classify(diff: real): (r: seq<Nav>)
    ensures |r| <= 1
    ensures r == [Prev] <==> diff > SwipeThreshold
    ensures r == [Next] <==> diff < -SwipeThreshold
    ensures r == [] <==> -SwipeThreshold <= diff <= SwipeThreshold
  {
    if Abs(diff) > SwipeThreshold then
      if diff > 0.0 then [Prev] else [Next]
    else
      []
  }

  function Opposite(n: Nav): Nav {
    match n
    case Prev => Next
    case Next => Prev
  }

  /** The same swipe in the other direction gives the opposite signal. */
  lemma ClassifyMirror(diff: real)
    ensures |Classify(-diff)| == |Classify(diff)|
    ensures forall i :: 0 <= i < |Classify(diff)| ==> Classify(-diff)[i] == Opposite(Classify(diff)[i])
  {
  }

  /** A swipe followed by the same swipe backwards leaves the anchor where it was. */
  lemma OppositeSwipesCancel(anchor: Day, isMobile: bool, diff: real)
    ensures ApplyAll(ApplyAll(anchor, isMobile, Classify(diff)), isMobile, Classify(-diff)) == anchor
  {
    PrevNextInverse(anchor, isMobile);
  }

  /** The `touchStartX` local captured by the touch listeners. */
  datatype Tracker = Tracker(touchStartX: real)

  /** What the listeners see: a touch start, a touch end, or a fresh run of the
      effect that installs them. */
  datatype TouchInput = TouchStart(x: real) | TouchEnd(x: real) | Reinstall

  datatype Swiped = Swiped(tracker: Tracker, signals: seq<Nav>)

  /** A fresh run of the effect: its closure starts from `touchStartX = 0`. */
  const Installed: Tracker := Tracker(0.0)

  /** One listener callback of the swipe effect as written. The effect depends on
      `handleNext` and `handlePrev`, which are new functions on every render, so
      every render re-runs it and the new closure starts over from zero. */
  function StepAsWritten(t: Tracker, input: TouchInput): Swiped {
    match input
    case TouchStart(x) => Swiped(Tracker(x), [])
    case TouchEnd(x) => Swiped(t, Classify(x - t.touchStartX))
    case Reinstall => Swiped(Installed, [])
  }

  /** One listener callback when the touch start survives a re-run of the effect
      (as it would if kept in a ref). */
  function StepKept(t: Tracker, input: TouchInput): Swiped {
    match input
    case TouchStart(x) => Swiped(Tracker(x), [])
    case TouchEnd(x) => Swiped(t, Classify(x - t.touchStartX))
    case Reinstall => Swiped(t, [])
  }

  function RunAsWritten(t: Tracker, inputs: seq<TouchInput>): Swiped
    decreases |inputs|
  {
    if inputs == [] then Swiped(t, [])
    else
      var first := StepAsWritten(t, inputs[0]);
      var rest := RunAsWritten(first.tracker, inputs[1..]);
      Swiped(rest.tracker, first.signals + rest.signals)
  }

  function RunKept(t: Tracker, inputs: seq<TouchInput>): Swiped
    decreases |inputs|
  {
    if inputs == [] then Swiped(t, [])
    else
      var first := StepKept(t, inputs[0]);
      var rest := RunKept(first.tracker, inputs[1..]);
      Swiped(rest.tracker, first.signals + rest.signals)
  }

  /** As written, a re-render between touch start and touch end measures the
      swipe from x = 0: a 10-pixel move to the left ending at x = 290 signals `Prev`. */
  lemma ReinstallLosesTouchStart()
    ensures Classify(290.0 - 300.0) == []
    ensures RunAsWritten(Installed, [TouchStart(300.0), Reinstall, TouchEnd(290.0)]).signals == [Prev]
  {
    var inputs := [TouchStart(300.0), Reinstall, TouchEnd(290.0)];
    assert inputs[1..] == [Reinstall, TouchEnd(290.0)];
    assert inputs[1..][1..] == [TouchEnd(290.0)];
  }

  function Reinstalls(n: nat): (r: seq<TouchInput>)
    ensures |r| == n
    ensures forall i :: 0 <= i < n ==> r[i] == Reinstall
  {
    seq(n, _ => Reinstall)
  }

  /** Re-runs of the effect emit nothing and keep the recorded touch start. */
  lemma {:induction false} KeptAcrossReinstalls(t: Tracker, n: nat, tail: seq<TouchInput>)
    ensures RunKept(t, Reinstalls(n) + tail) == RunKept(t, tail)
    decreases n
  {
    if n > 0 {
      var inputs := Reinstalls(n) + tail;
      assert inputs[0] == Reinstall;
      assert inputs[1..] == Reinstalls(n - 1) + tail;
      KeptAcrossReinstalls(t, n - 1, tail);
    } else {
      assert Reinstalls(n) + tail == tail;
    }
  }

  /** With the touch start kept, a touch gesture is classified by its own delta
      however many times the effect re-runs in between. */
  lemma KeptGestureClassified(t: Tracker, startX: real, n: nat, endX: real)
    ensures RunKept(t, [TouchStart(startX)] + Reinstalls(n) + [TouchEnd(endX)]).signals
            == Classify(endX - startX)
  {
    var inputs := [TouchStart(startX)] + Reinstalls(n) + [TouchEnd(endX)];
    assert inputs[1..] == Reinstalls(n) + [TouchEnd(endX)];
    KeptAcrossReinstalls(Tracker(startX), n, [TouchEnd(endX)]);
    assert [TouchEnd(endX)][1..] == [];
  }
}

=== FILE: view_window.dfy ===
/** The visible date window: the anchor day, its one-day (mobile) or one-week
    (desktop) step, the Monday-based week around it, and the navigation
    signals that move it. */
module ViewWindow {
  import opened Dates

  /** A navigation signal: `Prev` is `handlePrev`/`moveToPrev`, `Next` is `handleNext`/`moveToNext`. */
  datatype Nav = Prev | Next

  /** How far one navigation moves the anchor: a day on mobile, a week on desktop. */
  function Step(isMobile: bool): nat {
    if isMobile then 1 else 7
  }

  /** `handleNext`: `addDays(prev, isMobile ? 1 : 7)`. */
  function NextDate(anchor: Day, isMobile: bool): (r: Day)
    ensures r > anchor
    ensures isMobile ==> r == anchor + 1
    ensures !isMobile ==> StartOfWeek(r) == StartOfWeek(anchor) + 7 && JsDay(r) == JsDay(anchor)
  {
    StartOfWeekShift(anchor);
    JsDayWeekShift(anchor, 1);
    AddDays(anchor, Step(isMobile))
  }

  /** `handlePrev`: `subDays(prev, isMobile ? 1 : 7)`. */
  function PrevDate(anchor: Day, isMobile: bool): (r: Day)
    ensures r < anchor
    ensures isMobile ==> r == anchor - 1
    ensures !isMobile ==> StartOfWeek(r) == StartOfWeek(anchor) - 7 && JsDay(r) == JsDay(anchor)
  {
    StartOfWeekShift(anchor - 7);
    JsDayWeekShift(anchor, -1);
    SubDays(anchor, Step(isMobile))
  }

  /** Retreating undoes advancing and advancing undoes retreating, in either density mode. */
  lemma PrevNextInverse(anchor: Day, isMobile: bool)
    ensures PrevDate(NextDate(anchor, isMobile), isMobile) == anchor
    ensures NextDate(PrevDate(anchor, isMobile), isMobile) == anchor
  {
  }

  function Apply(anchor: Day, isMobile: bool, nav: Nav): Day {
    match nav
    case Prev => PrevDate(anchor, isMobile)
    case Next => NextDate(anchor, isMobile)
  }

  /** Applies navigation signals in order. */
  function ApplyAll(anchor: Day, isMobile: bool, navs: seq<Nav>): Day
    decreases |navs|
  {
    if navs == [] then anchor else ApplyAll(Apply(anchor, isMobile, navs[0]), isMobile, navs[1..])
  }

  function CountOf(navs: seq<Nav>, nav: Nav): nat
    decreases |navs|
  {
    if navs == [] then 0 else (if navs[0] == nav then 1 else 0) + CountOf(navs[1..], nav)
  }

  /** Counting signals distributes over concatenation. */
  lemma {:induction false} CountOfConcat(a: seq<Nav>, b: seq<Nav>, nav: Nav)
    ensures CountOf(a + b, nav) == CountOf(a, nav) + CountOf(b, nav)
    decreases |a|
  {
    if a == [] {
      assert a + b == b;
    } else {
      assert (a + b)[1..] == a[1..] + b;
      CountOfConcat(a[1..], b, nav);
    }
  }

  /** A run of signals moves the anchor by one step per `Next` minus one step per `Prev`,
      whatever their order. */
  lemma {:induction false} ApplyAllNet(anchor: Day, isMobile: bool, navs: seq<Nav>)
    ensures ApplyAll(anchor, isMobile, navs)
            == anchor + Step(isMobile) * (CountOf(navs, Next) - CountOf(navs, Prev))
    decreases |navs|
  {
    if navs != [] {
      ApplyAllNet(Apply(anchor, isMobile, navs[0]), isMobile, navs[1..]);
    }
  }

  /** Signals applied one run after another are the concatenated run. */
  lemma {:induction false} ApplyAllConcat(anchor: Day, isMobile: bool, a: seq<Nav>, b: seq<Nav>)
    ensures ApplyAll(anchor, isMobile, a + b) == ApplyAll(ApplyAll(anchor, isMobile, a), isMobile, b)
    decreases |a|
  {
    if a == [] {
      assert a + b == b;
    } else {
      assert (a + b)[1..] == a[1..] + b;
      ApplyAllConcat(Apply(anchor, isMobile, a[0]), isMobile, a[1..], b);
    }
  }

  /** Each day is the day after the one before it. */
  predicate Consecutive(days: seq<Day>) {
    forall k :: 0 < k < |days| ==> days[k] == days[k - 1] + 1
  }

  /** In a run of consecutive days, two days differ by their distance in the run. */
  lemma ConsecutiveOffset(days: seq<Day>, i: int, j: int)
    requires Consecutive(days)
    requires 0 <= i < |days| && 0 <= j < |days|
    ensures days[j] == days[i] + (j - i)
    decreases if i < j then j - i else i - j
  {
    if i < j {
      ConsecutiveOffset(days, i, j - 1);
    } else if j < i {
      ConsecutiveOffset(days, i - 1, j);
    }
  }

  /** `currentWeekDates` / `getWeekDates`: the seven days from the Monday that starts the anchor's week. */
  function WeekDates(anchor: Day): (r: seq<Day>)
    ensures |r| == 7
    ensures IsMonday(r[0])
    ensures forall i :: 0 < i < |r| ==> r[i] == r[i - 1] + 1
    ensures anchor in r
  {
    var start := StartOfWeek(anchor);
    var r := seq(7, i => AddDays(start, i));
    assert r[anchor - start] == anchor;
    r
  }

  /** The week shown is exactly the set of days that share the anchor's week. */
  lemma WeekDatesAreTheWeek(anchor: Day, d: Day)
    ensures d in WeekDates(anchor) <==> StartOfWeek(d) == StartOfWeek(anchor)
  {
    var start := StartOfWeek(anchor);
    var r := WeekDates(anchor);
    if d in r {
      var i :| 0 <= i < 7 && r[i] == d;
      StartOfWeekUnique(start, d);
    }
    if StartOfWeek(d) == start {
      assert r[d - start] == d;
    }
  }

  /** Any day of the week shown yields the same week (tapping a weekday tab keeps the tabs). */
  lemma WeekDatesStable(anchor: Day, d: Day)
    requires d in WeekDates(anchor)
    ensures WeekDates(d) == WeekDates(anchor)
  {
    WeekDatesAreTheWeek(anchor, d);
  }

  /** On desktop, `Next` shows the following week and `Prev` the preceding one. */
  lemma WeekAfterNavigation(anchor: Day)
    ensures WeekDates(NextDate(anchor, false))[0] == WeekDates(anchor)[6] + 1
    ensures WeekDates(PrevDate(anchor, false))[6] + 1 == WeekDates(anchor)[0]
  {
  }
}
